=== FILE: README.md ===
# Whitened single-component Metropolis with a shielded vector

This project models, in Dafny, the core of a small PyMC extension. It has
three parts.

- **The whitened-density helpers of `mvnmetropolis.py`** (module `Whitened`).
  - `step` keeps the whitened image `LI·v` of the current value in `scaled_val`
    (mvnmetropolis.py:45) and, when coordinate `index` moves by `delta`, adds
    `adjust_scaled_val(index, delta, LI)` to it (mvnmetropolis.py:59). As
    written, that adjustment is row `index` of `LI` times `delta`, which does
    not keep `scaled_val` equal to `LI·v`: the first finding below.
  - `logp_of_scaled` is the Gaussian log-density `-0.5·Σ(a-b)²` between two
    whitened vectors.
- **The `MVNMetropolis` step method** (module `Metropolis`).
  - The constructor builds the per-coordinate scale factors and counters and
    the default proposal scale.
  - `step` is a sweep over the coordinates. For each one it proposes a move,
    pushes it into the variable, and then either commits the proposed baselines
    (`scaled_val`, `logp`, `loglike`) or reverts the variable.
  - `tune` multiplies each coordinate's scale factor by the factor of the first
    acceptance-rate band that matches, then zeroes the counters. A coordinate
    with no trials has the rate 0/0, a NaN, which matches no band.
- **The shielded vector of `shield.py` and `shielding_mvn.py`** (module `Shield`).
  - The vector-valued variable keeps one scalar proxy (a `pm.Degenerate`) per
    component.
  - `set_value` pushes into a proxy only the components that changed.
  - `revert` rolls back only those proxies.
  - The two files contain the same logic: one wraps an arbitrary base class
    through a class factory, the other fixes the base class. One model serves
    both, and each row below gives the matching lines of `shielding_mvn.py`.

Floats are modelled as `real`. Random draws are inputs:
- `noise[i]` is the standard-normal draw behind coordinate `i`'s proposal;
- `logUs[i]` is the logarithm of the uniform draw that its acceptance test uses.

The likelihood of the variable's children (the `loglike` property) is an
arbitrary function of the current value.

The pure specification sits beside the imperative code:
- `Sweep` gives the baselines after the first `i` coordinates;
- `SetAll` and `RevertAll` give the proxies after `set_value` and `revert`.

The classes `Shield.ShieldedVector`, `Shield.Proxy` and
`Metropolis.MvnMetropolis` update their fields in place, and their methods are
proved against those functions.

Two behaviours of the source are kept as written:
- `step` never updates `accepted` or `rejected`, so `tune` never changes a
  scale factor (the third finding below);
- `revert` compares each component with `last_value`, not with the proxy's
  current scalar.

Two others are corrected, and `step` uses the corrections: the whitened update
moves by a column of `LI`, not a row (first finding), and the proposal step is
`proposal_sd[i]·z`, not `np.random.normal(proposal_sd[i])` (second finding).

## Model

| member | source | states |
|---|---|---|
| `Whitened.AdjustScaledVal` | mvnmetropolis.py:4-9 | As written: the result has the length of row `index` of `LI`, and entry `k` is `LI[index][k]·delta`. |
| `Whitened.AdjustScaledValZero` | mvnmetropolis.py:9 | A zero `delta` gives the zero vector. |
| `Whitened.AdjustScaledValLinear` | mvnmetropolis.py:9 | The adjustment is linear in `delta`: `adj(c·d1 + d2) == c·adj(d1) + adj(d2)`. |
| `Whitened.RowAdjustmentIsNotIncremental` | mvnmetropolis.py:4-9 | With `LI = [[1,0],[1,1]]`, `v = [0,0]` and a move of 1 at coordinate 0, `LI·v` plus the row adjustment is not `LI·v'`: adding the row, as `step` does at mvnmetropolis.py:59, does not keep `scaled_val` equal to `LI·value` (mvnmetropolis.py:45). |
| `Whitened.AdjustScaledCol` | mvnmetropolis.py:4-9 | Corrected adjustment: entry `k` is `LI[k][index]·delta` (column `index`), one entry per row of `LI`. |
| `Whitened.IncrementalWhitening` | mvnmetropolis.py:45-59 | What `step` relies on, for the column: `LI·(v with v[index] += delta) == LI·v + AdjustScaledCol(index, delta, LI)` for every `LI`, `v`, `index`, `delta`, so `scaled_val` started as `LI·value` (line 45) stays `LI·value` through each move (line 59). |
| `Whitened.SumSqDiff` | mvnmetropolis.py:15 | `np.sum((a-b)**2)` is never negative. |
| `Whitened.SumSqDiffZero` | mvnmetropolis.py:15 | The sum of squared differences is zero exactly when `a == b` componentwise. |
| `Whitened.LogpOfScaled` | mvnmetropolis.py:11-15 | `logp_of_scaled` is never positive. |
| `Whitened.LogpOfScaledZero` | mvnmetropolis.py:11-15 | `logp_of_scaled(a, b) == 0` exactly when `a == b` (both directions). |
| `Whitened.LogpOfScaledSymmetric` | mvnmetropolis.py:11-15 | `logp_of_scaled(a, b) == logp_of_scaled(b, a)`. |
| `Whitened.LogpIsWhitenedResidual` | mvnmetropolis.py:12-14 | At `LI·val` and `LI·m` the function is `-0.5·‖LI·(val - m)‖²`, which equals the docstring's `-.5 (val-m).T (L L.T).I (val-m)` when `LI` is the inverse of `L`. |
| `Shield.Assign` | shield.py:34 | Assigning `x` to a proxy installs `x` and notifies once, and a roll-back afterwards gives the old scalar again. |
| `Shield.RollBack` | shield.py:45 | A roll-back restores the remembered scalar, keeps it remembered, and notifies once. |
| `Shield.SetAll` | shield.py:31-37 | After `set_value`, proxy `k` is assigned `cur[k]` when there is no previous value or `cur[k]` differs from it, and is left as it was otherwise (same rule at shielding_mvn.py:17-23). |
| `Shield.RevertAll` | shield.py:43-45 | After `revert`, proxy `k` is rolled back exactly when `cur[k] != last[k]`, and is left as it was otherwise (shielding_mvn.py:29-31). |
| `Shield.FirstValuePushesAll` | shield.py:35-37 | With no previous value, every proxy holds its component afterwards and has been notified exactly once (shielding_mvn.py:21-23). This branch is dead in the source: the base step sets `last_value` to the old value before the test, so `set_value` never reaches it. |
| `Shield.SetTouchesExactlyChanged` | shield.py:31-34 | With a previous value, proxy `k` changes if and only if component `k` changed (shielding_mvn.py:17-20). |
| `Shield.OnlyChangedComponentNotified` | shield.py:11-16 | Changing component `i` alone assigns the new scalar to proxy `i` and leaves every other proxy untouched. This is the invalidation precision the docstring promises. |
| `Shield.SetKeepsCoherent` | shield.py:29-37 | If the proxies held the old value, then after `set_value` they hold the new value, and every changed proxy remembers its old component. |
| `Shield.SetThenRevertRestores` | shield.py:41-46 | `revert` after `set_value` brings every proxy back to its old scalar. A proxy is notified twice if its component changed and not at all otherwise (shielding_mvn.py:27-32). |
| `Shield.RevertIsIdempotent` | shield.py:43-45 | Once the value equals the snapshot, `revert` touches no proxy. |
| `Shield.RevertKeepsCoherent` | shield.py:41-46 | From coherent proxies, `revert` leaves every proxy holding the restored value. |
| `Shield.Proxy.constructor` | shield.py:26 | A new proxy holds its component's scalar, has no previous scalar and no notifications, and records its index. |
| `Shield.Proxy.SetValue` | shield.py:34 | Assignment: the proxy holds `x`, remembers its old scalar, and notifies once. |
| `Shield.Proxy.Revert` | shield.py:45 | Rollback: the remembered scalar comes back, and the proxy notifies once. |
| `Shield.ShieldedVector.constructor` | shield.py:23-26 | The base value is installed with no previous value. Then one fresh proxy per component, with proxy `k` at index `k` holding `init[k]`. The proxies start coherent (shielding_mvn.py:9-12). |
| `Shield.ShieldedVector.Propagate` | shield.py:30-37 | Every proxy ends in the state `SetAll` gives for the new value over the snapshot. Both branches are covered: the changed-only loop and the push-all loop (shielding_mvn.py:16-23), the latter unreachable from `set_value`, which calls this only after setting the snapshot. |
| `Shield.ShieldedVector.SetValue` | shield.py:28-37 | The base step sets `last_value` to the old value and `value` to `v`. Then, if proxies exist, their states become `SetAll(old states, old value, v)`. Coherence is kept, and before the proxies exist only the base changes (shielding_mvn.py:14-23). |
| `Shield.ShieldedVector.RevertProxies` | shield.py:43-45 | The proxies at changed components are rolled back, and the others keep their state (shielding_mvn.py:29-31). |
| `Shield.ShieldedVector.Revert` | shield.py:41-46 | Proxies at changed components roll back, then the base value returns to `last_value`. The proxies end as `RevertAll` says and coherence is kept. With proxies present, no snapshot and a non-empty value, the source raises; nothing changes and `ok` is false (shielding_mvn.py:27-32). |
| `Shield.ShieldedVector.Component` | shield.py:48-49 | `f[i]` yields the proxy of component `i`, not the scalar, with numpy's negative indexing: the result is that element of the proxy array. There is none out of range or before the proxies exist (shielding_mvn.py:34-35). |
| `Metropolis.Initial` | mvnmetropolis.py:45-49 | The baselines before the loop are those of the value: `scaled_val == LI·value`, `logp == logp_of_scaled(scaled_val, LI·mu)`, and `loglike` is the likelihood at the value. |
| `Metropolis.Sweep` | mvnmetropolis.py:53-68 | The running baselines after visiting coordinates `0..i-1` in order, each visit seeing the previous one's result, with the corrected column adjustment (first finding) and the corrected step `sd·z` (second finding). The dimension and the shapes are kept. |
| `Metropolis.Propose` | mvnmetropolis.py:55-61 | The whitened vector moves by the corrected column adjustment (first finding), not line 59's row. The proposal keeps the dimension and the shapes, its `logp_p` is never positive, and `loglike_p` is the likelihood of the proposed value. |
| `Metropolis.Accepts` | mvnmetropolis.py:63 | The log of a uniform draw is negative, so a proposal that does not lower `logp + loglike` is always accepted. |
| `Metropolis.Visit` | mvnmetropolis.py:63-68 | A visit keeps the shapes. When the test accepts the proposal, the visit adopts it. If it changes the baselines at all, it adopts the proposal, and only when `logp_p + loglike_p - logp - loglike` exceeds the log of the uniform draw. |
| `Metropolis.ProposalMovesOneCoordinate` | mvnmetropolis.py:55-57 | The proposal differs from the current value only at `i`, and there by exactly `delta`. |
| `Metropolis.ProposalIsConsistent` | mvnmetropolis.py:59-61 | From consistent baselines, the incrementally updated `scaled_val_p`, `logp_p` and `loglike_p` are exactly those of the proposed value. |
| `Metropolis.VisitMovesOneCoordinate` | mvnmetropolis.py:63-68 | After the accept/reject decision, coordinate `i` has kept its value or moved by `delta`, and every other coordinate is unchanged. |
| `Metropolis.SweepKeepsConsistent` | mvnmetropolis.py:53-68 | Whatever is accepted or rejected, every baseline `step` holds is that of its current value. |
| `Metropolis.SweepMovesEachCoordinateAtMostOnce` | mvnmetropolis.py:53-68 | After `i` visits, each visited coordinate has kept its value or moved by its own delta, and the unvisited ones are untouched. |
| `Metropolis.SweepTracksDensity` | mvnmetropolis.py:45-68 | At the end of a sweep, `logp` is `-0.5·‖LI·(value - mu)‖²` and `loglike` is the likelihood of the final value. |
| `Metropolis.ProposalDeltaAsWritten` | mvnmetropolis.py:54 | As written, the step equals the scale exactly when the noise is zero: zero noise still moves by `sd`. |
| `Metropolis.ProposalDelta` | mvnmetropolis.py:54 | The intended step `sd·z`: with a non-zero scale it is zero exactly when the noise is, and with a positive scale it has the sign of the noise. |
| `Metropolis.Times` | mvnmetropolis.py:51 | `proposal_sd * adaptive_scale_factor` keeps the length, and a factor of one leaves that coordinate's scale as given. |
| `Metropolis.Deltas` | mvnmetropolis.py:51-54 | One step per coordinate. A coordinate with zero noise is not moved, and one with a positive scale moves the way its noise points. |
| `Metropolis.ProposalDeltaAsWrittenIsBiased` | mvnmetropolis.py:54 | As written, `np.random.normal(sd)` shifts the draw by `sd`. Opposite noises give steps of different size, and zero noise still moves by `sd`. |
| `Metropolis.ProposalDeltaSymmetric` | mvnmetropolis.py:54 | The intended step `sd·z` is odd in the noise, so the proposal is symmetric. Zero noise proposes no move. |
| `Metropolis.DefaultProposalSd` | mvnmetropolis.py:29-31 | The default proposal scale has the value's length. Every zero component of the value becomes exactly 1, and every non-zero component is copied unchanged. |
| `Metropolis.AcceptanceRate` | mvnmetropolis.py:86 | With no trials the quotient 0/0 is NaN (`None`), and only then. Otherwise the rate lies in `[0, 1]`, is 0 exactly when nothing was accepted, and is 1 exactly when nothing was rejected. |
| `Metropolis.AcceptanceRates` | mvnmetropolis.py:86 | One rate per coordinate, each that coordinate's `AcceptanceRate`. |
| `Metropolis.TuneMultiplier` | mvnmetropolis.py:89-111 | The first-match ladder 0.1, 0.5, 0.9, 10, 2, 1.1, 1, where a NaN rate fails every comparison. The factor is always positive: below 1 exactly when the rate is below 0.2, exactly 1 when the rate is NaN or in `[0.2, 0.5]`, and above 1 exactly when the rate is above 0.5. |
| `Metropolis.TuneMultiplierMonotone` | mvnmetropolis.py:89-111 | A higher acceptance rate never gets a smaller factor. |
| `Metropolis.TuneMultiplierExtremes` | mvnmetropolis.py:92-103 | Rate 0 gives ×0.1 and rate 1 gives ×10. |
| `Metropolis.Any` | mvnmetropolis.py:125 | `np.any` is true exactly when `true` occurs among the flags. |
| `Metropolis.SweepDecisions` | mvnmetropolis.py:63-68 | The outcome of each visit's test: when it is true the sweep moves on to the proposal, and when it is false the baselines stay as they were. |
| `Metropolis.CountSweep` | mvnmetropolis.py:72-73 | The intended counting: no counter falls, each coordinate gains exactly one trial per sweep, `accepted[k]` grows exactly when visit `k` accepted and `rejected[k]` exactly when it rejected. |
| `Metropolis.CountedSweepTunes` | mvnmetropolis.py:86-111 | With decisions counted, every coordinate has a rate after a sweep. From zero counts, an accepted coordinate's scale is multiplied by ten and a rejected one's divided by ten. |
| `Metropolis.SweepCountsTune` | mvnmetropolis.py:63-111 | Counting the sweep's own decisions from zero: where `tune` would multiply the scale by ten the sweep moved on to the proposal, and where it would divide by ten the sweep kept its baselines. |
| `Metropolis.MvnMetropolis.constructor` | mvnmetropolis.py:18-42 | The length is that of the variable's value. `adaptive_scale_factor` is all ones, `accepted` and `rejected` are all zeros, and each is a fresh array of that length. `proposal_sd` is the given one or `DefaultProposalSd` of the current value. `LI` and `mu` are not stored: `step` reads them afresh. |
| `Metropolis.MvnMetropolis.Step` | mvnmetropolis.py:44-68 | `LI` and `mu` are the values read at the start of the call (lines 45-46). The variable ends holding `Sweep(...)`'s value, computed from the initial baselines with `delta[i] = (proposal_sd·adaptive_scale_factor)[i]·noise[i]`. Its `last_value` is the value before the last visit (unchanged when there are no coordinates). A proxy whose step is zero is untouched, the proxies stay coherent, and `adaptive_scale_factor`, `accepted` and `rejected` are unchanged. |
| `Metropolis.MvnMetropolis.VisitAll` | mvnmetropolis.py:53-68 | The loop takes the running baselines from `Sweep` after 0 coordinates to `Sweep` after all of them. Until visit `k`, proxy `k` is untouched, and it stays untouched when its step is zero. `last_value` ends as the value before the last visit, and coherence is kept. |
| `Metropolis.MvnMetropolis.VisitCoordinate` | mvnmetropolis.py:54-68 | One pass of the loop body takes the running baselines from `Sweep` after `i` coordinates to `Sweep` after `i+1`. On acceptance the proposed baselines are adopted; on rejection the variable is reverted and the baselines are kept. `last_value` ends as the value before the visit. No proxy other than `i` changes, and none at all when the step is zero. |
| `Metropolis.MvnMetropolis.Tune` | mvnmetropolis.py:70-125 | Each scale factor is multiplied by exactly `TuneMultiplier` of its acceptance rate, so positive factors stay positive and a coordinate with no trials keeps its factor. The counters are zero afterwards. `tuning` starts as `0*acc_rate`, true (NaN) exactly where the rate is NaN; every NaN rate fails all six bands and reaches `tuning[i] = False`, so the result is always false. |
| `Metropolis.StepThenTuneAsWritten` | mvnmetropolis.py:53-68 | As written, a sampler fresh from `__init__` that has stepped and is then tuned still has zero counts, every scale factor is still 1, and `tune` answers false. |

## Left out

- The PyMC graph machinery is not modelled: `pm.Index`, `pm.Degenerate` as
  graph nodes, `pm.Lambda`, `StepMethod`, `parents`, and the lazy recomputation
  of dependants. A proxy is a plain object, and its `notified` counter stands in
  for the invalidation of its dependants.
- The base variable's `set_value`/`revert` (pymc's `Stochastic`, `MvNormalChol`)
  is not part of this model's sources. It is modelled as "`last_value` becomes
  the old value, `value` the new one" and "`value` returns to `last_value`", a
  no-op when there is none.
- `Shield.Proxy.Revert`: pymc's rollback of a proxy that was never assigned is
  not modelled; the model keeps its scalar.
- `Shield.ShieldedVector.SetValue`: the `force` argument is ignored. It only
  matters to the base class.
- `Shield.ShieldedVector.Component`: slices and index arrays are not modelled,
  only integer indices.
- The class factory's renaming and docstring copying (shield.py:4-21, 39,
  51-56), and the `value` property wiring (shield.py:39,
  shielding_mvn.py:25), are not modelled.
- Randomness (`np.random.normal`, `np.random.random`) and `np.log` are not
  modelled: the draws are the inputs `noise` and `logUs`.
- Floating-point rounding and infinities are not modelled; all arithmetic is
  on `real`. The one NaN the modelled code meets, the rate 0/0 in `tune`, is
  `None`, and it fails every comparison as a NaN does.
- A scalar `proposal_sd`, which numpy broadcasts at mvnmetropolis.py:51, is
  not modelled: the model takes one scale per coordinate, and a scalar `s`
  is passed as `seq(n, _ => s)`.
- `Metropolis.MvnMetropolis.constructor`: several source defects are not
  reproduced. The malformed `StepMethod.__init__` call (mvnmetropolis.py:19)
  is not modelled. The triangular solve that makes `LI` from `L`, with its
  free name `L` (mvnmetropolis.py:40-42), is not modelled: `Step` receives
  the current `LI` and `mu` as arguments on every call.
  `verbose` and `tally` are not modelled (mvnmetropolis.py:35-38).
- `Metropolis.MvnMetropolis.Tune`: `acc_rate` used before assignment
  (mvnmetropolis.py:87) is read as the array of rates. The verbose printing
  (mvnmetropolis.py:113-119), with its undefined `verbose`, is not modelled.
- `Metropolis.MvnMetropolis.Step`: the counters are never incremented, because
  the source never does so (third finding below); the intended counting is
  modelled on values by `CountSweep`. Its ensures gives the final value; the
  final local baselines are stated per coordinate by `VisitCoordinate`.
- `Metropolis.MvnMetropolis.Step`: the loop is the separate method `VisitAll`
  and its body the method `VisitCoordinate`. Apart from that, the loop keeps
  the source's order of updates.
- `Metropolis.MvnMetropolis.Step`: the notification counts of the proxies are
  stated only for zero steps (untouched) and per visit (only proxy `i`); the
  exact count after a sweep (one for an accepted move, two for a rejected one)
  follows from `Shield.SetThenRevertRestores` but is not stated by `Step`.
- `Metropolis.MvnMetropolis.Step`: the likelihood `loglike` is a fixed function
  of the value. Its recomputation through the graph, which the proxies make
  lazy, is not modelled.
- `Metropolis.MvnMetropolis.Step`: the whitened image is moved by the corrected
  column adjustment `AdjustScaledCol`, not by the source's row (first finding
  below). The step size is the corrected `ProposalDelta`, not the source's
  shifted draw (second finding below).

## Findings

| source | as written | input that shows it | evidently intended | confidence | as-written member | corrected member |
|---|---|---|---|---|---|---|
| mvnmetropolis.py:4-9 | `adjust_scaled_val` returns row `index` of `LI` times `delta`, and `step` adds it to `scaled_val` (line 59) | `LI = [[1,0],[1,1]]`, `v = [0,0]`, coordinate 0 moved by 1: `LI·v'` is `[1,1]`, but `LI·v` plus row 0 is `[1,0]` | column `index` of `LI` times `delta`, the change of `LI·v` that `step` needs: it starts `scaled_val` as `LI·value` (line 45) and adds the adjustment on each move (line 59). The docstring (lines 5-7) names the change `L*(value-last_value)`, but the caller passes `LI` | not executed | `Whitened.RowAdjustmentIsNotIncremental` | `Whitened.IncrementalWhitening` |
| mvnmetropolis.py:54 | `np.random.normal(proposal_sd[i])` passes the scale as the mean, so the step is `sd + z` | `sd = 1`, noise `0.5` and `-0.5`: steps `1.5` and `0.5`, not opposite; noise `0` still steps by `1` | a centred draw of spread `sd`, `sd·z`, which is symmetric as a Metropolis proposal needs | not executed | `Metropolis.ProposalDeltaAsWrittenIsBiased` | `Metropolis.ProposalDeltaSymmetric` |
| mvnmetropolis.py:53-68 | `step` never adds to `accepted` or `rejected`, so after `__init__` (lines 24-25) the counts stay zero; `tune` then computes 0/0, a NaN, for every coordinate (line 86), no band matches, and no scale factor ever changes | any sampler: `__init__`, then `step`, then `tune` | each visit adds one to `accepted[i]` when its proposal is accepted and to `rejected[i]` otherwise, the "acceptance rate of the last k proposals" the `tune` docstring describes (lines 72-73) | not executed | `Metropolis.StepThenTuneAsWritten` | `Metropolis.CountedSweepTunes` |

=== FILE: metropolis.dfy ===
/**
 * The `MVNMetropolis` step method of mvnmetropolis.py: a single-component
 * Metropolis sweep over a multivariate normal variable whose whitened
 * residual is updated incrementally, and the rule that tunes the proposal
 * scale from the acceptance counts.
 *
 * Random draws are inputs: `noise[i]` is the standard-normal draw behind the
 * proposal for coordinate `i`, and `logUs[i]` the logarithm of the uniform
 * draw its acceptance test compares against. The likelihood of the variable's
 * children is an arbitrary function `loglike` of the current value.
 */
module Metropolis {
  import opened Wrappers
  import opened Whitened
  import Shield

  // ---------------------------------------------------------------------
  // The sweep, as a function of its inputs

  /** The running baselines of `step`: the value, its whitened image, its log-density and its likelihood. */
  datatype Baseline = Baseline(value: Vector, scaledVal: Vector, logp: real, loglike: real)

  /** `LI` is n×n and the whitened vectors have length n, where n is the dimension of the value. */
  predicate Shaped(LI: Matrix, scaledM: Vector, s: Baseline)
  {
    IsSquare(LI, |s.value|) && |scaledM| == |s.value| && |s.scaledVal| == |s.value|
  }

  /** The baselines are those of the value: what `step` computes from scratch before its loop. */
  predicate Consistent(LI: Matrix, scaledM: Vector, loglike: Vector -> real, s: Baseline)
  {
    Shaped(LI, scaledM, s) &&
    s.scaledVal == MatVec(LI, s.value) &&
    s.logp == LogpOfScaled(s.scaledVal, scaledM) &&
    s.loglike == loglike(s.value)
  }

  /** The baselines at the start of `step`, for value `v` and mean `mu`. */
  function Initial(LI: Matrix, mu: Vector, loglike: Vector -> real, v: Vector): (s: Baseline)
    requires IsSquare(LI, |v|) && |mu| == |v|
    ensures s.value == v && Consistent(LI, MatVec(LI, mu), loglike, s)
  {
    var scaledVal := MatVec(LI, v);
    Baseline(v, scaledVal, LogpOfScaled(scaledVal, MatVec(LI, mu)), loglike(v))
  }

  /**
   * The proposal for coordinate `i`: the value moved by `delta` at `i`, its
   * whitened image moved incrementally, and the density and likelihood there.
   */
  function Propose(LI: Matrix, scaledM: Vector, loglike: Vector -> real, s: Baseline, i: nat, delta: real): (p: Baseline)
    requires Shaped(LI, scaledM, s) && i < |s.value|
    ensures Shaped(LI, scaledM, p) && |p.value| == |s.value|
    ensures p.logp <= 0.0 && p.loglike == loglike(p.value)
  {
    var v := s.value[i := s.value[i] + delta];
    var scaledVal := Add(s.scaledVal, AdjustScaledCol(i, delta, LI));
    Baseline(v, scaledVal, LogpOfScaled(scaledVal, scaledM), loglike(v))
  }

  /**
   * The Metropolis test: the log of the uniform draw is below the change in
   * log-posterior. The log of a draw from (0, 1) is negative, so a proposal
   * that does not lower the log-posterior is then always accepted.
   */
  function Accepts(s: Baseline, p: Baseline, logU: real): (b: bool)
    ensures logU < 0.0 && p.logp + p.loglike >= s.logp + s.loglike ==> b
  {
    logU < p.logp + p.loglike - s.logp - s.loglike
  }

  /** One pass of the loop body: the proposal on acceptance, the baselines unchanged on rejection. */
  function Visit(LI: Matrix, scaledM: Vector, loglike: Vector -> real, s: Baseline, i: nat, delta: real, logU: real): (r: Baseline)
    requires Shaped(LI, scaledM, s) && i < |s.value|
    ensures Shaped(LI, scaledM, r) && |r.value| == |s.value|
    ensures Accepts(s, Propose(LI, scaledM, loglike, s, i, delta), logU) ==> r == Propose(LI, scaledM, loglike, s, i, delta)
    ensures r != s ==> r == Propose(LI, scaledM, loglike, s, i, delta) &&
                       logU < r.logp + r.loglike - s.logp - s.loglike
  {
    var p := Propose(LI, scaledM, loglike, s, i, delta);
    if Accepts(s, p, logU) then p else s
  }

  /** The baselines after coordinates `0 .. i-1` have been visited in order, each seeing the running baselines. */
  function Sweep(LI: Matrix, scaledM: Vector, loglike: Vector -> real, s: Baseline,
                 deltas: Vector, logUs: Vector, i: nat): (r: Baseline)
    requires Shaped(LI, scaledM, s) && i <= |s.value| && |deltas| == |s.value| && |logUs| == |s.value|
    ensures |r.value| == |s.value| && Shaped(LI, scaledM, r)
  {
    if i == 0 then s
    else Visit(LI, scaledM, loglike, Sweep(LI, scaledM, loglike, s, deltas, logUs, i - 1), i - 1, deltas[i - 1], logUs[i - 1])
  }

  /** `trace[j]` holds the baselines of the sweep after `j` coordinates, for every `j` up to the dimension. */
  ghost predicate IsTrace(LI: Matrix, scaledM: Vector, loglike: Vector -> real, s: Baseline,
                          deltas: Vector, logUs: Vector, trace: seq<Baseline>)
  {
    Shaped(LI, scaledM, s) && |deltas| == |s.value| && |logUs| == |s.value| && |trace| == |s.value| + 1 &&
    forall j {:trigger Sweep(LI, scaledM, loglike, s, deltas, logUs, j)} :: 0 <= j <= |s.value| ==>
      trace[j] == Sweep(LI, scaledM, loglike, s, deltas, logUs, j)
  }

  /** Consecutive entries of a trace are one visit apart. */
  lemma TraceStep(LI: Matrix, scaledM: Vector, loglike: Vector -> real, s: Baseline,
                  deltas: Vector, logUs: Vector, trace: seq<Baseline>, i: nat)
    requires IsTrace(LI, scaledM, loglike, s, deltas, logUs, trace) && i < |s.value|
    ensures Shaped(LI, scaledM, trace[i]) && |trace[i].value| == |s.value|
    ensures trace[i + 1] == Visit(LI, scaledM, loglike, trace[i], i, deltas[i], logUs[i])
  {
    assert trace[i] == Sweep(LI, scaledM, loglike, s, deltas, logUs, i);
    assert trace[i + 1] == Sweep(LI, scaledM, loglike, s, deltas, logUs, i + 1);
  }

  /** The sweep's baselines after 0, 1, ..., n coordinates, as one sequence. */
  ghost function Trace(LI: Matrix, scaledM: Vector, loglike: Vector -> real, s: Baseline,
                       deltas: Vector, logUs: Vector): (trace: seq<Baseline>)
    requires Shaped(LI, scaledM, s) && |deltas| == |s.value| && |logUs| == |s.value|
    ensures IsTrace(LI, scaledM, loglike, s, deltas, logUs, trace)
  {
    seq(|s.value| + 1, j requires 0 <= j <= |s.value| => Sweep(LI, scaledM, loglike, s, deltas, logUs, j))
  }

  /** The proposal differs from the current value only at `i`, and there by exactly `delta`. */
  lemma ProposalMovesOneCoordinate(LI: Matrix, scaledM: Vector, loglike: Vector -> real, s: Baseline, i: nat, delta: real)
    requires Shaped(LI, scaledM, s) && i < |s.value|
    ensures var p := Propose(LI, scaledM, loglike, s, i, delta);
            |p.value| == |s.value| && p.value[i] - s.value[i] == delta &&
            forall j :: 0 <= j < |s.value| && j != i ==> p.value[j] == s.value[j]
  {
  }

  /**
   * The incremental update is exact: from consistent baselines, the proposal's
   * whitened vector, density and likelihood are those of the proposed value.
   */
  lemma ProposalIsConsistent(LI: Matrix, scaledM: Vector, loglike: Vector -> real, s: Baseline, i: nat, delta: real)
    requires Consistent(LI, scaledM, loglike, s) && i < |s.value|
    ensures Consistent(LI, scaledM, loglike, Propose(LI, scaledM, loglike, s, i, delta))
  {
    IncrementalWhitening(LI, s.value, i, delta);
  }

  /** Every baseline `step` holds is that of its current value, whatever is accepted. */
  lemma {:induction false} SweepKeepsConsistent(LI: Matrix, scaledM: Vector, loglike: Vector -> real, s: Baseline,
                                                 deltas: Vector, logUs: Vector, i: nat)
    requires Consistent(LI, scaledM, loglike, s) && i <= |s.value| && |deltas| == |s.value| && |logUs| == |s.value|
    ensures Consistent(LI, scaledM, loglike, Sweep(LI, scaledM, loglike, s, deltas, logUs, i))
  {
    if i > 0 {
      SweepKeepsConsistent(LI, scaledM, loglike, s, deltas, logUs, i - 1);
      ProposalIsConsistent(LI, scaledM, loglike, Sweep(LI, scaledM, loglike, s, deltas, logUs, i - 1), i - 1, deltas[i - 1]);
    }
  }

  /** A visit either keeps the value or moves coordinate `i` by exactly `delta`. */
  lemma VisitMovesOneCoordinate(LI: Matrix, scaledM: Vector, loglike: Vector -> real, s: Baseline, i: nat, delta: real, logU: real)
    requires Shaped(LI, scaledM, s) && i < |s.value|
    ensures var r := Visit(LI, scaledM, loglike, s, i, delta, logU);
            |r.value| == |s.value| && (r.value[i] == s.value[i] || r.value[i] == s.value[i] + delta) &&
            forall j :: 0 <= j < |s.value| && j != i ==> r.value[j] == s.value[j]
  {
  }

  /**
   * After visiting coordinates `0 .. i-1`, each of them has either kept its
   * value or moved by exactly its own delta, and the others are untouched.
   */
  lemma {:induction false} SweepMovesEachCoordinateAtMostOnce(LI: Matrix, scaledM: Vector, loglike: Vector -> real, s: Baseline,
                                                               deltas: Vector, logUs: Vector, i: nat)
    requires Shaped(LI, scaledM, s) && i <= |s.value| && |deltas| == |s.value| && |logUs| == |s.value|
    ensures var r := Sweep(LI, scaledM, loglike, s, deltas, logUs, i);
            (forall j :: 0 <= j < i ==> r.value[j] == s.value[j] || r.value[j] == s.value[j] + deltas[j]) &&
            (forall j :: i <= j < |s.value| ==> r.value[j] == s.value[j])
  {
    if i > 0 {
      SweepMovesEachCoordinateAtMostOnce(LI, scaledM, loglike, s, deltas, logUs, i - 1);
      var prev := Sweep(LI, scaledM, loglike, s, deltas, logUs, i - 1);
      VisitMovesOneCoordinate(LI, scaledM, loglike, prev, i - 1, deltas[i - 1], logUs[i - 1]);
    }
  }

  /**
   * What the running `logp` means: at the end of a sweep it is the Gaussian
   * log-density `-0.5·|LI·(value - mu)|²` of the final value.
   */
  lemma SweepTracksDensity(LI: Matrix, mu: Vector, loglike: Vector -> real, v: Vector, deltas: Vector, logUs: Vector)
    requires IsSquare(LI, |v|) && |mu| == |v| && |deltas| == |v| && |logUs| == |v|
    ensures var r := Sweep(LI, MatVec(LI, mu), loglike, Initial(LI, mu, loglike, v), deltas, logUs, |v|);
            r.logp == -0.5 * SumSq(MatVec(LI, Sub(r.value, mu))) && r.loglike == loglike(r.value)
  {
    var s := Initial(LI, mu, loglike, v);
    SweepKeepsConsistent(LI, MatVec(LI, mu), loglike, s, deltas, logUs, |v|);
    var r := Sweep(LI, MatVec(LI, mu), loglike, s, deltas, logUs, |v|);
    LogpIsWhitenedResidual(LI, r.value, mu);
  }

  // ---------------------------------------------------------------------
  // The proposal draw

  /**
   * The draw as written: `np.random.normal(sd)` passes the scale as the
   * mean, so the step is the standard-normal draw `z` shifted by `sd`.
   */
  function ProposalDeltaAsWritten(sd: real, z: real): (r: real)
    ensures r == sd <==> z == 0.0
  {
    sd + z
  }

  /**
   * The draw as intended: a normal step of spread `sd` around zero. With a
   * non-zero scale the step is zero exactly when the noise is, and with a
   * positive scale it points the way the noise does.
   */
  function ProposalDelta(sd: real, z: real): (r: real)
    ensures sd != 0.0 ==> (r == 0.0 <==> z == 0.0)
    ensures sd > 0.0 ==> (r > 0.0 <==> z > 0.0)
  {
    sd * z
  }

  /**
   * The intended draw is odd in the noise, so the proposal is symmetric,
   * as the Metropolis test (with no Hastings correction) requires; zero
   * noise proposes no move.
   */
  lemma ProposalDeltaSymmetric(sd: real, z: real)
    ensures ProposalDelta(sd, -z) == -ProposalDelta(sd, z)
    ensures ProposalDelta(sd, 0.0) == 0.0
  {
  }

  /**
   * The draw as written is not symmetric: with scale 1, the opposite noises
   * 0.5 and -0.5 step by 1.5 and 0.5, and zero noise still moves by 1.
   */
  lemma ProposalDeltaAsWrittenIsBiased()
    ensures ProposalDeltaAsWritten(1.0, -0.5) != -ProposalDeltaAsWritten(1.0, 0.5)
    ensures ProposalDeltaAsWritten(1.0, 0.0) == 1.0
  {
  }

  /**
   * The steps of one sweep: coordinate `i` draws with scale `scale[i]`, so a
   * coordinate with zero noise is not moved, and one with a positive scale
   * moves the way its noise points.
   */
  function Deltas(scale: Vector, noise: Vector): (d: Vector)
    requires |noise| == |scale|
    ensures |d| == |scale|
    ensures forall k :: 0 <= k < |d| && noise[k] == 0.0 ==> d[k] == 0.0
    ensures forall k :: 0 <= k < |d| && scale[k] > 0.0 ==> (d[k] > 0.0 <==> noise[k] > 0.0)
  {
    seq(|scale|, i requires 0 <= i < |scale| => ProposalDelta(scale[i], noise[i]))
  }

  /**
   * `self.proposal_sd * self.adaptive_scale_factor`, componentwise: a factor
   * of one, as every factor is before the first `tune`, leaves the scale as given.
   */
  function Times(a: Vector, b: Vector): (c: Vector)
    requires |a| == |b|
    ensures |c| == |a|
    ensures forall k :: 0 <= k < |a| && b[k] == 1.0 ==> c[k] == a[k]
  {
    seq(|a|, i requires 0 <= i < |a| => a[i] * b[i])
  }

  /**
   * The default proposal scale: the initial value with every zero replaced
   * by one, so no coordinate gets a zero scale.
   */
  function DefaultProposalSd(v: Vector): (sd: Vector)
    ensures |sd| == |v|
    ensures forall k :: 0 <= k < |v| && v[k] == 0.0 ==> sd[k] == 1.0
    ensures forall k :: 0 <= k < |v| && v[k] != 0.0 ==> sd[k] == v[k]
  {
    seq(|v|, k requires 0 <= k < |v| => if v[k] == 0.0 then 1.0 else v[k])
  }

  // ---------------------------------------------------------------------
  // Tuning

  /**
   * `accepted / (accepted + rejected)` for one coordinate. With no trials the
   * floating-point quotient 0/0 is NaN, written `None`.
   */
  function AcceptanceRate(accepted: real, rejected: real): (rate: Option<real>)
    requires accepted >= 0.0 && rejected >= 0.0
    ensures rate.None? <==> accepted + rejected == 0.0
    ensures rate.Some? ==> 0.0 <= rate.value <= 1.0
    ensures rate.Some? ==> (rate.value == 0.0 <==> accepted == 0.0)
    ensures rate.Some? ==> (rate.value == 1.0 <==> rejected == 0.0)
  {
    if accepted + rejected == 0.0 then None else Some(accepted / (accepted + rejected))
  }

  /** The rates of all coordinates, computed before the tuning loop. */
  function AcceptanceRates(accepted: seq<real>, rejected: seq<real>): (rates: seq<Option<real>>)
    requires |accepted| == |rejected|
    requires forall k :: 0 <= k < |accepted| ==> accepted[k] >= 0.0 && rejected[k] >= 0.0
    ensures |rates| == |accepted|
    ensures forall k :: 0 <= k < |rates| ==> rates[k] == AcceptanceRate(accepted[k], rejected[k])
  {
    seq(|accepted|, k requires 0 <= k < |accepted| => AcceptanceRate(accepted[k], rejected[k]))
  }

  /** `rate < t` as floating point compares: NaN is below nothing. */
  predicate Below(rate: Option<real>, t: real)
  {
    rate.Some? && rate.value < t
  }

  /** `rate > t` as floating point compares: NaN is above nothing. */
  predicate Above(rate: Option<real>, t: real)
  {
    rate.Some? && rate.value > t
  }

  /**
   * The factor `tune` applies for a given acceptance rate, the first band
   * that matches deciding. It shrinks the scale exactly below 0.2, grows it
   * exactly above 0.5, and leaves it alone in between and when the rate is
   * NaN, which matches no band.
   */
  function TuneMultiplier(rate: Option<real>): (m: real)
    ensures m > 0.0
    ensures m < 1.0 <==> Below(rate, 0.2)
    ensures m == 1.0 <==> rate.None? || 0.2 <= rate.value <= 0.5
    ensures m > 1.0 <==> Above(rate, 0.5)
  {
    if Below(rate, 0.001) then 0.1
    else if Below(rate, 0.05) then 0.5
    else if Below(rate, 0.2) then 0.9
    else if Above(rate, 0.95) then 10.0
    else if Above(rate, 0.75) then 2.0
    else if Above(rate, 0.5) then 1.1
    else 1.0
  }

  /** A higher acceptance rate never gets a smaller factor. */
  lemma TuneMultiplierMonotone(r1: real, r2: real)
    requires r1 <= r2
    ensures TuneMultiplier(Some(r1)) <= TuneMultiplier(Some(r2))
  {
  }

  /** The extremes: nothing accepted divides the scale by ten, everything accepted multiplies it by ten. */
  lemma TuneMultiplierExtremes()
    ensures TuneMultiplier(Some(0.0)) == 0.1 && TuneMultiplier(Some(1.0)) == 10.0
  {
  }

  /** Whether each visit of the sweep accepts its proposal: the sweep moves on to the proposal exactly then. */
  function SweepDecisions(LI: Matrix, scaledM: Vector, loglike: Vector -> real, s: Baseline,
                          deltas: Vector, logUs: Vector): (d: seq<bool>)
    requires Shaped(LI, scaledM, s) && |deltas| == |s.value| && |logUs| == |s.value|
    ensures |d| == |s.value|
    ensures forall k :: 0 <= k < |d| && d[k] ==>
              Sweep(LI, scaledM, loglike, s, deltas, logUs, k + 1)
              == Propose(LI, scaledM, loglike, Sweep(LI, scaledM, loglike, s, deltas, logUs, k), k, deltas[k])
    ensures forall k :: 0 <= k < |d| && !d[k] ==>
              Sweep(LI, scaledM, loglike, s, deltas, logUs, k + 1) == Sweep(LI, scaledM, loglike, s, deltas, logUs, k)
  {
    seq(|s.value|, k requires 0 <= k < |s.value| =>
      var prev := Sweep(LI, scaledM, loglike, s, deltas, logUs, k);
      Accepts(prev, Propose(LI, scaledM, loglike, prev, k, deltas[k]), logUs[k]))
  }

  /**
   * The counts as `tune` reads them: visit `k` adds one to `accepted[k]`
   * when its proposal was accepted and one to `rejected[k]` otherwise, so
   * each coordinate gains exactly one trial.
   */
  function CountSweep(accepted: seq<real>, rejected: seq<real>, decisions: seq<bool>): (counts: (seq<real>, seq<real>))
    requires |accepted| == |decisions| && |rejected| == |decisions|
    ensures |counts.0| == |decisions| && |counts.1| == |decisions|
    ensures forall k :: 0 <= k < |decisions| ==> counts.0[k] + counts.1[k] == accepted[k] + rejected[k] + 1.0
    ensures forall k :: 0 <= k < |decisions| ==> counts.0[k] >= accepted[k] && counts.1[k] >= rejected[k]
    ensures forall k :: 0 <= k < |decisions| ==> (counts.0[k] > accepted[k] <==> decisions[k])
    ensures forall k :: 0 <= k < |decisions| ==> (counts.1[k] > rejected[k] <==> !decisions[k])
  {
    (seq(|decisions|, k requires 0 <= k < |decisions| => if decisions[k] then accepted[k] + 1.0 else accepted[k]),
     seq(|decisions|, k requires 0 <= k < |decisions| => if decisions[k] then rejected[k] else rejected[k] + 1.0))
  }

  /**
   * Once decisions are counted, every coordinate has a rate after a sweep,
   * so `tune` acts on it: after one sweep from zero counts the rate is 1
   * where the proposal was accepted and 0 where it was not, and the scale is
   * multiplied or divided by ten accordingly.
   */
  lemma CountedSweepTunes(accepted: seq<real>, rejected: seq<real>, decisions: seq<bool>)
    requires |accepted| == |decisions| && |rejected| == |decisions|
    requires forall k :: 0 <= k < |decisions| ==> accepted[k] >= 0.0 && rejected[k] >= 0.0
    ensures var counts := CountSweep(accepted, rejected, decisions);
            forall k :: 0 <= k < |decisions| ==> AcceptanceRate(counts.0[k], counts.1[k]).Some?
    ensures var counts := CountSweep(accepted, rejected, decisions);
            forall k :: 0 <= k < |decisions| && accepted[k] == 0.0 && rejected[k] == 0.0 ==>
              TuneMultiplier(AcceptanceRate(counts.0[k], counts.1[k])) == (if decisions[k] then 10.0 else 0.1)
  {
  }

  /**
   * Counting the sweep's own decisions from zero: a coordinate whose scale
   * `tune` then multiplies by ten is one where the sweep moved on to the
   * proposal, and one whose scale it divides by ten is one where the sweep
   * kept its baselines.
   */
  lemma SweepCountsTune(LI: Matrix, scaledM: Vector, loglike: Vector -> real, s: Baseline,
                        deltas: Vector, logUs: Vector)
    requires Shaped(LI, scaledM, s) && |deltas| == |s.value| && |logUs| == |s.value|
    ensures var zeros := seq(|s.value|, _ => 0.0);
            var counts := CountSweep(zeros, zeros, SweepDecisions(LI, scaledM, loglike, s, deltas, logUs));
            forall k :: 0 <= k < |s.value| ==>
              (TuneMultiplier(AcceptanceRate(counts.0[k], counts.1[k])) == 10.0 ==>
                 Sweep(LI, scaledM, loglike, s, deltas, logUs, k + 1)
                 == Propose(LI, scaledM, loglike, Sweep(LI, scaledM, loglike, s, deltas, logUs, k), k, deltas[k])) &&
              (TuneMultiplier(AcceptanceRate(counts.0[k], counts.1[k])) == 0.1 ==>
                 Sweep(LI, scaledM, loglike, s, deltas, logUs, k + 1) == Sweep(LI, scaledM, loglike, s, deltas, logUs, k))
  {
    var zeros := seq(|s.value|, _ => 0.0);
    var d := SweepDecisions(LI, scaledM, loglike, s, deltas, logUs);
    CountedSweepTunes(zeros, zeros, d);
  }

  /** `np.any`: some flag is set. */
  function Any(flags: seq<bool>): (b: bool)
    ensures b <==> true in flags
  {
    exists k :: 0 <= k < |flags| && flags[k]
  }

  // ---------------------------------------------------------------------
  // The step method

  class MvnMetropolis {
    const stochastic: Shield.ShieldedVector
    const n: nat
    const loglike: Vector -> real
    const proposalSd: Vector
    const adaptiveScaleFactor: array<real>
    const accepted: array<real>
    const rejected: array<real>

    ghost predicate Valid()
      reads this, adaptiveScaleFactor, accepted, rejected
    {
      |proposalSd| == n &&
      adaptiveScaleFactor.Length == n && accepted.Length == n && rejected.Length == n &&
      adaptiveScaleFactor != accepted && adaptiveScaleFactor != rejected && accepted != rejected &&
      (forall k :: 0 <= k < n ==> adaptiveScaleFactor[k] > 0.0) &&
      (forall k :: 0 <= k < n ==> accepted[k] >= 0.0 && rejected[k] >= 0.0)
    }

    /**
     * `__init__`: one scale factor of 1 and zero counts per coordinate, and
     * the given proposal scale or, without one, the default built from the
     * current value. The inverse factor `LI` and the mean `mu` are graph
     * nodes whose values `step` reads afresh on every call, so they are
     * arguments of `Step`, not state of the sampler.
     */
    constructor (stochastic: Shield.ShieldedVector, loglike: Vector -> real, proposalSd: Option<Vector>)
      requires proposalSd.Some? ==> |proposalSd.value| == |stochastic.value|
      ensures Valid() && this.stochastic == stochastic && n == |stochastic.value|
      ensures this.loglike == loglike
      ensures this.proposalSd == if proposalSd.Some? then proposalSd.value else DefaultProposalSd(stochastic.value)
      ensures fresh(adaptiveScaleFactor) && fresh(accepted) && fresh(rejected)
      ensures forall k :: 0 <= k < n ==> adaptiveScaleFactor[k] == 1.0 && accepted[k] == 0.0 && rejected[k] == 0.0
    {
      var len := |stochastic.value|;
      n := len;
      adaptiveScaleFactor := new real[len](_ => 1.0);
      accepted := new real[len](_ => 0.0);
      rejected := new real[len](_ => 0.0);
      this.proposalSd := if proposalSd.Some? then proposalSd.value else DefaultProposalSd(stochastic.value);
      this.stochastic := stochastic;
      this.loglike := loglike;
    }

    /**
     * `step()`: visits every coordinate in order, proposing a move, pushing
     * it into the variable, and reverting the variable when the move is
     * rejected. The final value is the one the sweep specification gives,
     * the proxies stay in sync, and the counts and scale factors are not touched.
     * `LI` and `mu` are the current values of `self.LI` and `self.mu`, read
     * at the start of the call.
     */
    method Step(LI: Matrix, mu: Vector, noise: Vector, logUs: Vector)
      requires Valid() && stochastic.Valid() && |stochastic.value| == n
      requires IsSquare(LI, n) && |mu| == n
      requires |noise| == n && |logUs| == n
      modifies stochastic, stochastic.Nodes()
      ensures stochastic.Valid() && |stochastic.value| == n
      ensures stochastic.degenerates == old(stochastic.degenerates)
      ensures stochastic.value
           == Sweep(LI, MatVec(LI, mu), loglike, Initial(LI, mu, loglike, old(stochastic.value)),
                    Deltas(Times(proposalSd, adaptiveScaleFactor[..]), noise), logUs, n).value
      ensures n == 0 ==> stochastic.lastValue == old(stochastic.lastValue)
      ensures n > 0 ==>
                stochastic.lastValue
                == Some(Sweep(LI, MatVec(LI, mu), loglike, Initial(LI, mu, loglike, old(stochastic.value)),
                              Deltas(Times(proposalSd, adaptiveScaleFactor[..]), noise), logUs, n - 1).value)
      ensures stochastic.degenerates != null ==>
                forall k :: 0 <= k < n && Deltas(Times(proposalSd, adaptiveScaleFactor[..]), noise)[k] == 0.0 ==>
                  stochastic.degenerates[k].State() == old(stochastic.degenerates[k].State())
      ensures old(stochastic.Synced()) ==> stochastic.Synced()
      ensures unchanged(adaptiveScaleFactor, accepted, rejected)
    {
      var scaledVal := MatVec(LI, stochastic.value);
      var scaledM := MatVec(LI, mu);
      var logp := LogpOfScaled(scaledVal, scaledM);
      var ll := loglike(stochastic.value);
      var deltas := Deltas(Times(proposalSd, adaptiveScaleFactor[..]), noise);
      ghost var start := Initial(LI, mu, loglike, stochastic.value);
      ghost var trace := Trace(LI, scaledM, loglike, start, deltas, logUs);
      assert trace[0] == Sweep(LI, scaledM, loglike, start, deltas, logUs, 0);
      VisitAll(LI, scaledM, scaledVal, logp, ll, deltas, logUs, start, trace);
      assert trace[n] == Sweep(LI, scaledM, loglike, start, deltas, logUs, n);
      if n > 0 {
        assert trace[n - 1] == Sweep(LI, scaledM, loglike, start, deltas, logUs, n - 1);
      }
    }

    /**
     * The loop of `step`: coordinates `0 .. n-1` are visited in order, each
     * seeing the running baselines. Visit `k` touches proxy `k` alone, and
     * not even that one when its step is zero.
     */
    method VisitAll(LI: Matrix, scaledM: Vector, scaledVal0: Vector, logp0: real, ll0: real, deltas: Vector, logUs: Vector,
                    ghost start: Baseline, ghost trace: seq<Baseline>)
      requires Valid() && stochastic.Valid() && |stochastic.value| == n
      requires IsTrace(LI, scaledM, loglike, start, deltas, logUs, trace) && |start.value| == n
      requires Baseline(stochastic.value, scaledVal0, logp0, ll0) == trace[0]
      modifies stochastic, stochastic.Nodes()
      ensures stochastic.Valid() && |stochastic.value| == n && stochastic.degenerates == old(stochastic.degenerates)
      ensures stochastic.value == trace[n].value
      ensures n == 0 ==> stochastic.lastValue == old(stochastic.lastValue)
      ensures n > 0 ==> stochastic.lastValue == Some(trace[n - 1].value)
      ensures stochastic.degenerates != null ==>
                forall k :: 0 <= k < n && deltas[k] == 0.0 ==>
                  stochastic.degenerates[k].State() == old(stochastic.degenerates[k].State())
      ensures old(stochastic.Synced()) ==> stochastic.Synced()
    {
      var scaledVal, logp, ll := scaledVal0, logp0, ll0;
      ghost var wasSynced := stochastic.Synced();
      ghost var states0 := if stochastic.degenerates != null then stochastic.States() else [];
      for i := 0 to n
        invariant stochastic.Valid() && |stochastic.value| == n
        invariant stochastic.degenerates == old(stochastic.degenerates) && stochastic.Nodes() == old(stochastic.Nodes())
        invariant Baseline(stochastic.value, scaledVal, logp, ll) == trace[i]
        invariant i == 0 ==> stochastic.lastValue == old(stochastic.lastValue)
        invariant i > 0 ==> stochastic.lastValue == Some(trace[i - 1].value)
        invariant stochastic.degenerates != null ==>
                    forall k :: 0 <= k < n && (i <= k || deltas[k] == 0.0) ==> stochastic.degenerates[k].State() == states0[k]
        invariant wasSynced ==> stochastic.Synced()
      {
        scaledVal, logp, ll := VisitCoordinate(LI, i, deltas[i], logUs[i], scaledM, scaledVal, logp, ll,
                                               start, deltas, logUs, trace);
      }
    }

    /**
     * The body of `step`'s loop for coordinate `i`: the moved value is pushed
     * into the variable, the whitened vector is moved incrementally, and the
     * Metropolis test either commits the proposed baselines or reverts the
     * variable and keeps the old ones. The sweep has then visited one more
     * coordinate.
     */
    method VisitCoordinate(LI: Matrix, i: nat, delta: real, logU: real, scaledM: Vector, scaledVal: Vector, logp: real, ll: real,
                           ghost start: Baseline, ghost deltas: Vector, ghost logUs: Vector, ghost trace: seq<Baseline>)
      returns (scaledVal': Vector, logp': real, ll': real)
      requires Valid() && stochastic.Valid() && |stochastic.value| == n && i < n
      requires IsTrace(LI, scaledM, loglike, start, deltas, logUs, trace) && |start.value| == n
      requires delta == deltas[i] && logU == logUs[i]
      requires Baseline(stochastic.value, scaledVal, logp, ll) == trace[i]
      modifies stochastic, stochastic.Nodes()
      ensures stochastic.Valid() && |stochastic.value| == n && stochastic.degenerates == old(stochastic.degenerates)
      ensures stochastic.Nodes() == old(stochastic.Nodes())
      ensures Baseline(stochastic.value, scaledVal', logp', ll') == trace[i + 1]
      ensures stochastic.lastValue == Some(old(stochastic.value))
      ensures stochastic.degenerates != null ==>
                forall j :: 0 <= j < n && (j != i || delta == 0.0) ==> stochastic.degenerates[j].State() == old(stochastic.degenerates[j].State())
      ensures old(stochastic.Synced()) ==> stochastic.Synced()
    {
      TraceStep(LI, scaledM, loglike, start, deltas, logUs, trace, i);
      var newVal := stochastic.value[i := stochastic.value[i] + delta];
      stochastic.SetValue(newVal);

      var scaledValP := Add(scaledVal, AdjustScaledCol(i, delta, LI));
      var logpP := LogpOfScaled(scaledValP, scaledM);
      var llP := loglike(stochastic.value);

      if logU < logpP + llP - logp - ll {
        scaledVal', logp', ll' := scaledValP, logpP, llP;
      } else {
        var reverted := stochastic.Revert();
        scaledVal', logp', ll' := scaledVal, logp, ll;
      }
    }

    /**
     * One pass of `tune`'s ladder: the first band that matches the rate
     * scales coordinate `i`'s factor; `noBand` tells that none matched, in
     * which case the source clears `tuning[i]`.
     */
    method ScaleCoordinate(i: nat, rate: Option<real>) returns (noBand: bool)
      requires i < adaptiveScaleFactor.Length
      modifies adaptiveScaleFactor
      ensures adaptiveScaleFactor[i] == old(adaptiveScaleFactor[i]) * TuneMultiplier(rate)
      ensures forall k :: 0 <= k < adaptiveScaleFactor.Length && k != i ==> adaptiveScaleFactor[k] == old(adaptiveScaleFactor[k])
      ensures old(adaptiveScaleFactor[i]) > 0.0 ==> adaptiveScaleFactor[i] > 0.0
      ensures noBand <==> TuneMultiplier(rate) == 1.0
    {
      noBand := false;
      if Below(rate, 0.001) {
        adaptiveScaleFactor[i] := adaptiveScaleFactor[i] * 0.1;
      } else if Below(rate, 0.05) {
        adaptiveScaleFactor[i] := adaptiveScaleFactor[i] * 0.5;
      } else if Below(rate, 0.2) {
        adaptiveScaleFactor[i] := adaptiveScaleFactor[i] * 0.9;
      } else if Above(rate, 0.95) {
        adaptiveScaleFactor[i] := adaptiveScaleFactor[i] * 10.0;
      } else if Above(rate, 0.75) {
        adaptiveScaleFactor[i] := adaptiveScaleFactor[i] * 2.0;
      } else if Above(rate, 0.5) {
        adaptiveScaleFactor[i] := adaptiveScaleFactor[i] * 1.1;
      } else {
        noBand := true;
      }
    }

    /**
     * `tune()`: every coordinate's scale factor is multiplied by the factor
     * its acceptance rate selects, the counts start again from zero, and the
     * answer to "still tuning?" is no.
     */
    method Tune() returns (stillTuning: bool)
      requires Valid()
      modifies adaptiveScaleFactor, accepted, rejected
      ensures Valid()
      ensures forall k :: 0 <= k < n ==>
                adaptiveScaleFactor[k]
                == old(adaptiveScaleFactor[k]) * TuneMultiplier(AcceptanceRate(old(accepted[k]), old(rejected[k])))
      ensures forall k :: 0 <= k < n ==> accepted[k] == 0.0 && rejected[k] == 0.0
      ensures !stillTuning
    {
      var rates := AcceptanceRates(accepted[..], rejected[..]);
      // `0*acc_rate` is 0 (false) where the rate is a number and NaN (true) where it is NaN.
      var tuning := seq(n, k requires 0 <= k < n => rates[k].None?);
      for i := 0 to n
        invariant |tuning| == n
        invariant forall k :: 0 <= k < i ==> !tuning[k]
        invariant forall k :: i <= k < n ==> (tuning[k] <==> rates[k].None?)
        invariant forall k :: 0 <= k < i ==> adaptiveScaleFactor[k] == old(adaptiveScaleFactor[k]) * TuneMultiplier(rates[k])
        invariant forall k :: i <= k < n ==> adaptiveScaleFactor[k] == old(adaptiveScaleFactor[k])
        invariant forall k :: 0 <= k < n ==> adaptiveScaleFactor[k] > 0.0
        invariant unchanged(accepted, rejected)
      {
        var noBand := ScaleCoordinate(i, rates[i]);
        if noBand {
          tuning := tuning[i := false];
        }
      }
      assert forall k :: 0 <= k < n ==> rates[k] == AcceptanceRate(old(accepted[k]), old(rejected[k]));
      forall k | 0 <= k < n {
        rejected[k] := rejected[k] * 0.0;
      }
      forall k | 0 <= k < n {
        accepted[k] := accepted[k] * 0.0;
      }
      stillTuning := Any(tuning);
    }
  }

  /**
   * As written, `step` records no decision: a sampler fresh from `__init__`
   * that has stepped still has zero counts, so every rate `tune` computes is
   * NaN, no band matches, and every scale factor stays at one.
   */
  method StepThenTuneAsWritten(stochastic: Shield.ShieldedVector, LI: Matrix, mu: Vector, loglike: Vector -> real,
                               proposalSd: Option<Vector>, noise: Vector, logUs: Vector)
    returns (m: MvnMetropolis, stillTuning: bool)
    requires stochastic.Valid() && IsSquare(LI, |stochastic.value|) && |mu| == |stochastic.value|
    requires proposalSd.Some? ==> |proposalSd.value| == |stochastic.value|
    requires |noise| == |stochastic.value| && |logUs| == |stochastic.value|
    modifies stochastic, stochastic.Nodes()
    ensures m.n == |stochastic.value| && m.adaptiveScaleFactor.Length == m.n
    ensures m.accepted.Length == m.n && m.rejected.Length == m.n
    ensures forall k :: 0 <= k < m.n ==> m.adaptiveScaleFactor[k] == 1.0 && m.accepted[k] == 0.0 && m.rejected[k] == 0.0
    ensures !stillTuning
  {
    m := new MvnMetropolis(stochastic, loglike, proposalSd);
    m.Step(LI, mu, noise, logUs);
    stillTuning := m.Tune();
  }
}

=== FILE: shield.dfy ===
/**
 * The "shielded" multivariate normal of shield.py and shielding_mvn.py: a
 * vector-valued variable that keeps one scalar proxy per component, so that
 * whatever depends on component `i` alone is invalidated only when that
 * component changes.  Both files hold the same logic (one over a class
 * factory, one over a fixed base class); this module models both.
 *
 * The base variable's own behaviour is that of a pymc stochastic:
 * `set_value` remembers the current value as `last_value` and installs the
 * new one; `revert` puts `last_value` back.
 */
module Shield {
  import opened Wrappers

  /** What one proxy holds: its scalar, the scalar before its last assignment,
    * and how many value events (assignments and reverts) its dependants saw. */
  datatype ProxyState = ProxyState(value: real, lastValue: Option<real>, notified: nat)

  /** `proxy.value = x`: the old scalar is remembered and dependants are notified once;
    * rolling back afterwards gives the old scalar again. */
  function Assign(p: ProxyState, x: real): (r: ProxyState)
    ensures r.value == x && r.notified == p.notified + 1
    ensures RollBack(r).value == p.value
  {
    ProxyState(x, Some(p.value), p.notified + 1)
  }

  /** `proxy.revert()`: the remembered scalar comes back, stays remembered (so a
    * second roll-back restores the same scalar), and dependants are notified once. */
  function RollBack(p: ProxyState): (r: ProxyState)
    ensures p.lastValue.Some? ==> r.value == p.lastValue.value
    ensures r.lastValue == p.lastValue && r.notified == p.notified + 1
  {
    ProxyState(if p.lastValue.Some? then p.lastValue.value else p.value, p.lastValue, p.notified + 1)
  }

  /** Component `k` of an optional snapshot. */
  function LastAt(last: Option<seq<real>>, k: nat): Option<real>
    requires last.Some? ==> k < |last.value|
  {
    if last.None? then None else Some(last.value[k])
  }

  /** Whether `set_value` pushes a component: always when there is no previous
    * value, otherwise only when the component differs from it. */
  predicate Pushes(last: Option<real>, cur: real)
  {
    last.None? || cur != last.value
  }

  /** Proxy `k` after the propagation loop of `set_value`. */
  function AfterSet(p: ProxyState, last: Option<real>, cur: real): ProxyState
  {
    if Pushes(last, cur) then Assign(p, cur) else p
  }

  /** Proxy `k` after the loop of `revert`: rolled back only if its component changed. */
  function AfterRevert(p: ProxyState, last: real, cur: real): ProxyState
  {
    if cur != last then RollBack(p) else p
  }

  /** All proxies after `set_value` has installed `cur` over the snapshot `last`. */
  function SetAll(ps: seq<ProxyState>, last: Option<seq<real>>, cur: seq<real>): (qs: seq<ProxyState>)
    requires |cur| == |ps| && (last.Some? ==> |last.value| == |ps|)
    ensures |qs| == |ps|
    ensures forall k :: 0 <= k < |ps| ==> qs[k] == AfterSet(ps[k], LastAt(last, k), cur[k])
  {
    seq(|ps|, k requires 0 <= k < |ps| => AfterSet(ps[k], LastAt(last, k), cur[k]))
  }

  /** All proxies after `revert` of `cur` back to `last`. */
  function RevertAll(ps: seq<ProxyState>, last: seq<real>, cur: seq<real>): (qs: seq<ProxyState>)
    requires |cur| == |ps| == |last|
    ensures |qs| == |ps|
    ensures forall k :: 0 <= k < |ps| ==> qs[k] == AfterRevert(ps[k], last[k], cur[k])
  {
    seq(|ps|, k requires 0 <= k < |ps| => AfterRevert(ps[k], last[k], cur[k]))
  }

  /** The proxies hold the components of `v`. */
  predicate Agrees(ps: seq<ProxyState>, v: seq<real>)
  {
    |ps| == |v| && forall k :: 0 <= k < |v| ==> ps[k].value == v[k]
  }

  /** The proxies hold `v`, and every proxy whose component differs from the
    * snapshot `last` remembers the snapshot's component. */
  predicate Coherent(ps: seq<ProxyState>, v: seq<real>, last: Option<seq<real>>)
  {
    Agrees(ps, v) &&
    (last.Some? ==>
       |last.value| == |v| &&
       forall k :: 0 <= k < |v| && v[k] != last.value[k] ==> ps[k].lastValue == Some(last.value[k]))
  }

  // ---------------------------------------------------------------------
  // Properties of the propagation rule

  /**
   * First value: with no previous value every component is pushed, so every
   * proxy ends up holding its component and is notified exactly once.
   */
  lemma FirstValuePushesAll(ps: seq<ProxyState>, cur: seq<real>)
    requires |cur| == |ps|
    ensures Agrees(SetAll(ps, None, cur), cur)
    ensures forall k :: 0 <= k < |ps| ==> SetAll(ps, None, cur)[k].notified == ps[k].notified + 1
  {
  }

  /**
   * Nothing else changes: a proxy is touched by `set_value` exactly when its
   * component differs from the previous value.
   */
  lemma SetTouchesExactlyChanged(ps: seq<ProxyState>, last: seq<real>, cur: seq<real>)
    requires |cur| == |ps| == |last|
    ensures forall k :: 0 <= k < |ps| ==>
              (SetAll(ps, Some(last), cur)[k] == ps[k] <==> cur[k] == last[k])
  {
  }

  /**
   * Invalidation precision: changing component `i` alone notifies proxy `i`
   * once, installs the new scalar in it, and leaves every other proxy as it was.
   */
  lemma OnlyChangedComponentNotified(ps: seq<ProxyState>, last: seq<real>, i: nat, x: real)
    requires |ps| == |last| && i < |last| && x != last[i]
    ensures SetAll(ps, Some(last), last[i := x])[i] == Assign(ps[i], x)
    ensures forall j :: 0 <= j < |ps| && j != i ==> SetAll(ps, Some(last), last[i := x])[j] == ps[j]
  {
  }

  /**
   * Consistency after `set_value`: if the proxies held the old value, they
   * hold the new one afterwards, and each pushed proxy remembers the old
   * component, so that a later `revert` can restore it.
   */
  lemma SetKeepsCoherent(ps: seq<ProxyState>, last: Option<seq<real>>, cur: seq<real>)
    requires |cur| == |ps|
    requires last.Some? ==> Agrees(ps, last.value)
    ensures Coherent(SetAll(ps, last, cur), cur, last)
  {
  }

  /**
   * `revert` after `set_value` is a round trip: every proxy holds its old
   * scalar again, and a proxy has been notified twice if its component
   * changed and not at all otherwise.
   */
  lemma SetThenRevertRestores(ps: seq<ProxyState>, last: seq<real>, cur: seq<real>)
    requires Agrees(ps, last) && |cur| == |last|
    ensures var qs := RevertAll(SetAll(ps, Some(last), cur), last, cur);
            Agrees(qs, last) &&
            forall k :: 0 <= k < |ps| ==>
              qs[k].notified == ps[k].notified + (if cur[k] != last[k] then 2 else 0)
  {
  }

  /** Once the base has been reverted, a second `revert` touches no proxy. */
  lemma RevertIsIdempotent(ps: seq<ProxyState>, last: seq<real>)
    requires |ps| == |last|
    ensures RevertAll(ps, last, last) == ps
  {
  }

  /** Reverting keeps the proxies coherent with the restored value. */
  lemma RevertKeepsCoherent(ps: seq<ProxyState>, last: seq<real>, cur: seq<real>)
    requires Coherent(ps, cur, Some(last))
    ensures Coherent(RevertAll(ps, last, cur), last, Some(last))
  {
  }

  // ---------------------------------------------------------------------
  // The objects

  /** A `pm.Degenerate` proxy for one component; `index` stands in for its `pm.Index` parent. */
  class Proxy {
    const index: nat
    var value: real
    var lastValue: Option<real>
    var notified: nat

    function State(): ProxyState
      reads this
    {
      ProxyState(value, lastValue, notified)
    }

    constructor (index: nat, value: real)
      ensures this.index == index && State() == ProxyState(value, None, 0)
    {
      this.index := index;
      this.value := value;
      this.lastValue := None;
      this.notified := 0;
    }

    method SetValue(x: real)
      modifies this
      ensures State() == Assign(old(State()), x)
    {
      lastValue := Some(value);
      value := x;
      notified := notified + 1;
    }

    method Revert()
      modifies this
      ensures State() == RollBack(old(State()))
    {
      if lastValue.Some? {
        value := lastValue.value;
      }
      notified := notified + 1;
    }
  }

  /** The shielded vector variable: base value and snapshot, plus the proxies. */
  class ShieldedVector {
    var value: seq<real>
    var lastValue: Option<seq<real>>
    /** `null` while the base is being constructed: `hasattr(self, 'degenerates')` is false. */
    var degenerates: array?<Proxy>

    ghost function Nodes(): set<Proxy>
      reads this, degenerates
    {
      if degenerates == null then {} else set k | 0 <= k < degenerates.Length :: degenerates[k]
    }

    ghost predicate Valid()
      reads this, degenerates
    {
      (lastValue.Some? ==> |lastValue.value| == |value|) &&
      (degenerates != null ==>
         degenerates.Length == |value| &&
         forall k :: 0 <= k < degenerates.Length ==> degenerates[k].index == k)
    }

    /** The state of every proxy, in component order. */
    ghost function States(): (ps: seq<ProxyState>)
      reads this, degenerates, Nodes()
      requires Valid() && degenerates != null
      ensures |ps| == |value|
      ensures forall k :: 0 <= k < |value| ==> ps[k] == degenerates[k].State()
    {
      StatesFrom(0)
    }

    ghost function StatesFrom(i: nat): (ps: seq<ProxyState>)
      reads this, degenerates, Nodes()
      requires Valid() && degenerates != null && i <= degenerates.Length
      ensures |ps| == degenerates.Length - i
      ensures forall k :: 0 <= k < |ps| ==> ps[k] == degenerates[i + k].State()
      decreases degenerates.Length - i
    {
      if i == degenerates.Length then [] else [degenerates[i].State()] + StatesFrom(i + 1)
    }

    /** Once the proxies exist, they are coherent with the value and its snapshot. */
    ghost predicate Synced()
      reads this, degenerates, Nodes()
      requires Valid()
    {
      degenerates != null ==> Coherent(States(), value, lastValue)
    }

    /**
     * `__init__`: the base is constructed first (its value installed with no
     * previous value, before any proxy exists), then one proxy per component,
     * each holding that component.
     */
    constructor (init: seq<real>)
      ensures Valid() && Synced()
      ensures value == init && lastValue == None
      ensures degenerates != null && fresh(degenerates) && degenerates.Length == |init|
      ensures forall k :: 0 <= k < |init| ==>
                fresh(degenerates[k]) && degenerates[k].State() == ProxyState(init[k], None, 0)
    {
      value := init;
      lastValue := None;
      degenerates := null;
      new;
      var made: seq<Proxy> := [];
      for i := 0 to |init|
        invariant value == init && lastValue == None && degenerates == null
        invariant |made| == i
        invariant forall k :: 0 <= k < i ==>
                    fresh(made[k]) && made[k].index == k && made[k].State() == ProxyState(init[k], None, 0)
      {
        var p := new Proxy(i, init[i]);
        made := made + [p];
      }
      degenerates := new Proxy[|made|](k requires 0 <= k < |made| => made[k]);
    }

    /**
     * The loop of `set_value` that follows the base step: every component
     * when there is no previous value, otherwise only the changed ones.
     */
    method Propagate()
      requires Valid() && degenerates != null
      modifies Nodes()
      ensures forall k :: 0 <= k < |value| ==>
                degenerates[k].State() == AfterSet(old(degenerates[k].State()), LastAt(lastValue, k), value[k])
    {
      if lastValue.Some? {
        for i := 0 to |value|
          invariant forall k :: 0 <= k < i ==>
                      degenerates[k].State() == AfterSet(old(degenerates[k].State()), LastAt(lastValue, k), value[k])
          invariant forall k :: i <= k < |value| ==> degenerates[k].State() == old(degenerates[k].State())
        {
          if value[i] != lastValue.value[i] {
            degenerates[i].SetValue(value[i]);
          }
        }
      } else {
        for i := 0 to |value|
          invariant forall k :: 0 <= k < i ==>
                      degenerates[k].State() == AfterSet(old(degenerates[k].State()), LastAt(lastValue, k), value[k])
          invariant forall k :: i <= k < |value| ==> degenerates[k].State() == old(degenerates[k].State())
        {
          degenerates[i].SetValue(value[i]);
        }
      }
    }

    /**
     * `set_value(v)`: the base step, then the proxies are brought up to date.
     * Before the proxies exist only the base changes.
     */
    method SetValue(v: seq<real>)
      requires Valid() && |v| == |value|
      modifies this, Nodes()
      ensures Valid() && degenerates == old(degenerates) && Nodes() == old(Nodes())
      ensures value == v && lastValue == Some(old(value))
      ensures degenerates != null ==> States() == SetAll(old(States()), Some(old(value)), v)
      ensures old(Synced()) ==> Synced()
    {
      lastValue := Some(value);
      value := v;
      if degenerates != null {
        Propagate();
        if old(Synced()) {
          SetKeepsCoherent(old(States()), Some(old(value)), v);
        }
      }
    }

    /** The loop of `revert` that precedes the base step: only the proxies whose component changed. */
    method RevertProxies()
      requires Valid() && degenerates != null && lastValue.Some?
      modifies Nodes()
      ensures forall k :: 0 <= k < |value| ==>
                degenerates[k].State() == AfterRevert(old(degenerates[k].State()), lastValue.value[k], value[k])
    {
      for i := 0 to |value|
        invariant forall k :: 0 <= k < i ==>
                    degenerates[k].State() == AfterRevert(old(degenerates[k].State()), lastValue.value[k], value[k])
        invariant forall k :: i <= k < |value| ==> degenerates[k].State() == old(degenerates[k].State())
      {
        if value[i] != lastValue.value[i] {
          degenerates[i].Revert();
        }
      }
    }

    /**
     * `revert()`. With proxies present and no previous value the comparison
     * with `last_value[i]` fails before anything changes (a `TypeError` in
     * the source, unless the vector is empty): `ok` is then false. Otherwise
     * the proxies at changed components are rolled back and the base value
     * returns to its snapshot (a no-op when there is none).
     */
    method Revert() returns (ok: bool)
      requires Valid()
      modifies this, Nodes()
      ensures Valid() && degenerates == old(degenerates) && Nodes() == old(Nodes())
      ensures ok <==> !(degenerates != null && lastValue.None? && |old(value)| > 0)
      ensures lastValue == old(lastValue)
      ensures !ok ==> value == old(value) && States() == old(States())
      ensures ok ==> value == (if lastValue.Some? then lastValue.value else old(value))
      ensures ok && degenerates != null && lastValue.Some? ==>
                States() == RevertAll(old(States()), lastValue.value, old(value))
      ensures ok && degenerates != null && lastValue.None? ==> States() == old(States())
      ensures old(Synced()) ==> Synced()
    {
      if degenerates != null {
        if lastValue.None? {
          if |value| > 0 {
            return false;
          }
        } else {
          RevertProxies();
        }
      }
      ok := true;
      if lastValue.Some? {
        if degenerates != null && old(Synced()) {
          RevertKeepsCoherent(old(States()), lastValue.value, value);
        }
        value := lastValue.value;
      }
    }

    /**
     * `__getitem__(index)`: the proxy of a component, not its scalar;
     * a negative index counts from the end. Out of range, or before the
     * proxies exist, there is none.
     */
    function Component(index: int): (r: Option<Proxy>)
      reads this, degenerates
      requires Valid()
      ensures r.Some? <==> degenerates != null && -|value| <= index < |value|
      ensures r.Some? ==> r.value.index == (if index < 0 then index + |value| else index)
      ensures r.Some? ==> r.value == degenerates[if index < 0 then index + |value| else index] && r.value in Nodes()
    {
      if degenerates == null || index < -degenerates.Length || degenerates.Length <= index then None
      else if index < 0 then Some(degenerates[index + degenerates.Length])
      else Some(degenerates[index])
    }
  }
}

=== FILE: whitened.dfy ===
/**
 * The module-level helpers of mvnmetropolis.py: the whitened residual of a
 * vector under a triangular covariance factor and its Gaussian log-density.
 * Vectors and matrices are sequences of `real` (floats are not modelled).
 */
module Whitened {

  type Vector = seq<real>
  type Matrix = seq<seq<real>>

  /** Every row of `m` has length `n`, so `m` multiplies vectors of length `n`. */
  predicate Rows(m: Matrix, n: nat)
  {
    forall k :: 0 <= k < |m| ==> |m[k]| == n
  }

  predicate IsSquare(m: Matrix, n: nat)
  {
    |m| == n && Rows(m, n)
  }

  function Dot(a: Vector, b: Vector): real
    requires |a| == |b|
  {
    if |a| == 0 then 0.0 else a[0] * b[0] + Dot(a[1..], b[1..])
  }

  /** `np.dot(m, v)` for a matrix `m` and a vector `v`. */
  function MatVec(m: Matrix, v: Vector): Vector
    requires Rows(m, |v|)
  {
    seq(|m|, k requires 0 <= k < |m| => Dot(m[k], v))
  }

  function Add(a: Vector, b: Vector): Vector
    requires |a| == |b|
  {
    seq(|a|, k requires 0 <= k < |a| => a[k] + b[k])
  }

  function Sub(a: Vector, b: Vector): Vector
    requires |a| == |b|
  {
    seq(|a|, k requires 0 <= k < |a| => a[k] - b[k])
  }

  function Scale(a: Vector, c: real): Vector
  {
    seq(|a|, k requires 0 <= k < |a| => a[k] * c)
  }

  function Column(m: Matrix, j: nat): Vector
    requires forall k :: 0 <= k < |m| ==> j < |m[k]|
  {
    seq(|m|, k requires 0 <= k < |m| => m[k][j])
  }

  function SumSq(a: Vector): real
  {
    if |a| == 0 then 0.0 else a[0] * a[0] + SumSq(a[1..])
  }

  // ---------------------------------------------------------------------
  // adjust_scaled_val

  /**
   * `adjust_scaled_val(index, delta, LI)` as the source writes it:
   * row `index` of `LI`, each entry multiplied by `delta`.
   */
  function AdjustScaledVal(index: nat, delta: real, LI: Matrix): (r: Vector)
    requires index < |LI|
    ensures |r| == |LI[index]|
    ensures forall k :: 0 <= k < |r| ==> r[k] == LI[index][k] * delta
  {
    Scale(LI[index], delta)
  }

  /** A zero step leaves the whitened residual where it was. */
  lemma AdjustScaledValZero(index: nat, LI: Matrix)
    requires index < |LI|
    ensures forall k :: 0 <= k < |LI[index]| ==> AdjustScaledVal(index, 0.0, LI)[k] == 0.0
  {
  }

  /** The adjustment is linear in `delta`. */
  lemma AdjustScaledValLinear(index: nat, c: real, d1: real, d2: real, LI: Matrix)
    requires index < |LI|
    ensures AdjustScaledVal(index, c * d1 + d2, LI)
         == Add(Scale(AdjustScaledVal(index, d1, LI), c), AdjustScaledVal(index, d2, LI))
  {
    var lhs := AdjustScaledVal(index, c * d1 + d2, LI);
    var rhs := Add(Scale(AdjustScaledVal(index, d1, LI), c), AdjustScaledVal(index, d2, LI));
    forall k | 0 <= k < |lhs| ensures lhs[k] == rhs[k] {
      var x := LI[index][k];
      assert x * (c * d1 + d2) == (x * d1) * c + x * d2;
    }
  }

  /**
   * The row the source takes is not the change of `LI·v` when `v[index]`
   * moves by `delta`: with a lower-triangular `LI` that has an entry below
   * the diagonal, moving `v[0]` by 1 changes both whitened coordinates,
   * while row 0 of `LI` predicts a change in the first one only.
   */
  lemma RowAdjustmentIsNotIncremental()
    ensures var LI := [[1.0, 0.0], [1.0, 1.0]];
            var v := [0.0, 0.0];
            MatVec(LI, v[0 := v[0] + 1.0]) != Add(MatVec(LI, v), AdjustScaledVal(0, 1.0, LI))
  {
    var LI := [[1.0, 0.0], [1.0, 1.0]];
    var v := [0.0, 0.0];
    var moved := v[0 := v[0] + 1.0];
    assert moved == [1.0, 0.0];
    assert Dot(LI[1], moved) == 1.0 by {
      assert LI[1][1..] == [1.0] && moved[1..] == [0.0];
      assert Dot([1.0], [0.0]) == 0.0 by { assert [1.0][1..] == []; }
    }
    assert Dot(LI[1], v) == 0.0 by {
      assert LI[1][1..] == [1.0] && v[1..] == [0.0];
      assert Dot([1.0], [0.0]) == 0.0 by { assert [1.0][1..] == []; }
    }
    assert MatVec(LI, moved)[1] == 1.0;
    assert Add(MatVec(LI, v), AdjustScaledVal(0, 1.0, LI))[1] == 0.0;
  }

  /**
   * The corrected adjustment: column `index` of `LI`, scaled by `delta`,
   * which is what `LI·v` gains when `v[index]` gains `delta`
   * (see IncrementalWhitening).
   */
  function AdjustScaledCol(index: nat, delta: real, LI: Matrix): (r: Vector)
    requires forall k :: 0 <= k < |LI| ==> index < |LI[k]|
    ensures |r| == |LI|
    ensures forall k :: 0 <= k < |r| ==> r[k] == LI[k][index] * delta
  {
    Scale(Column(LI, index), delta)
  }

  lemma {:induction false} DotUpdate(a: Vector, b: Vector, i: nat, d: real)
    requires |a| == |b| && i < |b|
    ensures Dot(a, b[i := b[i] + d]) == Dot(a, b) + a[i] * d
  {
    var b' := b[i := b[i] + d];
    if i == 0 {
      assert b'[1..] == b[1..];
    } else {
      assert b'[1..] == b[1..][i - 1 := b[i] + d];
      DotUpdate(a[1..], b[1..], i - 1, d);
    }
  }

  /**
   * Incremental correctness: moving coordinate `index` of `v` by `delta`
   * moves the whitened vector `LI·v` by exactly `AdjustScaledCol`.
   */
  lemma IncrementalWhitening(LI: Matrix, v: Vector, index: nat, delta: real)
    requires Rows(LI, |v|) && index < |v|
    ensures MatVec(LI, v[index := v[index] + delta])
         == Add(MatVec(LI, v), AdjustScaledCol(index, delta, LI))
  {
    var lhs := MatVec(LI, v[index := v[index] + delta]);
    var rhs := Add(MatVec(LI, v), AdjustScaledCol(index, delta, LI));
    forall k | 0 <= k < |LI| ensures lhs[k] == rhs[k] {
      DotUpdate(LI[k], v, index, delta);
    }
  }

  // ---------------------------------------------------------------------
  // logp_of_scaled

  /** `np.sum((a - b)**2)`, summed from the first coordinate on. */
  function SumSqDiff(a: Vector, b: Vector): (r: real)
    requires |a| == |b|
    ensures r >= 0.0
  {
    if |a| == 0 then 0.0
    else
      var x := a[0] - b[0];
      SquareNonnegative(x);
      x * x + SumSqDiff(a[1..], b[1..])
  }

  /** The sum of squared differences vanishes exactly when the two vectors coincide. */
  lemma {:induction false} SumSqDiffZero(a: Vector, b: Vector)
    requires |a| == |b|
    ensures SumSqDiff(a, b) == 0.0 <==> a == b
  {
    if |a| > 0 {
      SumSqDiffZero(a[1..], b[1..]);
      SquarePlusRest(a[0] - b[0], SumSqDiff(a[1..], b[1..]));
      assert a == [a[0]] + a[1..] && b == [b[0]] + b[1..];
    }
  }

  /** A product of two numbers of the same strict sign is positive. */
  lemma ProductPositive(x: real, y: real)
    requires (x > 0.0 && y > 0.0) || (x < 0.0 && y < 0.0)
    ensures !(x * y <= 0.0)
  {
  }

  lemma SquareNonnegative(x: real)
    ensures x * x >= 0.0
  {
  }

  /** Adding a square to a non-negative number gives zero only when both are zero. */
  lemma SquarePlusRest(x: real, rest: real)
    requires rest >= 0.0
    ensures x * x + rest >= 0.0
    ensures x * x + rest == 0.0 <==> x == 0.0 && rest == 0.0
  {
    SquareNonnegative(x);
    if x != 0.0 {
      ProductPositive(x, x);
    }
  }

  /**
   * `logp_of_scaled(scaled_val, scaled_m)`: minus one half of the squared
   * distance between the two whitened vectors. It is never positive.
   */
  function LogpOfScaled(scaledVal: Vector, scaledM: Vector): (r: real)
    requires |scaledVal| == |scaledM|
    ensures r <= 0.0
  {
    -0.5 * SumSqDiff(scaledVal, scaledM)
  }

  /** The log-density reaches its maximum, zero, exactly when the two whitened vectors coincide. */
  lemma LogpOfScaledZero(scaledVal: Vector, scaledM: Vector)
    requires |scaledVal| == |scaledM|
    ensures LogpOfScaled(scaledVal, scaledM) == 0.0 <==> scaledVal == scaledM
  {
    SumSqDiffZero(scaledVal, scaledM);
  }

  lemma {:induction false} SumSqDiffSymmetric(a: Vector, b: Vector)
    requires |a| == |b|
    ensures SumSqDiff(a, b) == SumSqDiff(b, a)
  {
    if |a| > 0 {
      SumSqDiffSymmetric(a[1..], b[1..]);
      assert (a[0] - b[0]) * (a[0] - b[0]) == (b[0] - a[0]) * (b[0] - a[0]);
    }
  }

  /** The log-density of the whitened residual is symmetric in its arguments. */
  lemma LogpOfScaledSymmetric(a: Vector, b: Vector)
    requires |a| == |b|
    ensures LogpOfScaled(a, b) == LogpOfScaled(b, a)
  {
    SumSqDiffSymmetric(a, b);
  }

  lemma {:induction false} SumSqDiffIsSumSqOfSub(a: Vector, b: Vector)
    requires |a| == |b|
    ensures SumSqDiff(a, b) == SumSq(Sub(a, b))
  {
    if |a| > 0 {
      assert Sub(a, b)[1..] == Sub(a[1..], b[1..]);
      SumSqDiffIsSumSqOfSub(a[1..], b[1..]);
    }
  }

  lemma {:induction false} DotSub(a: Vector, b: Vector, c: Vector)
    requires |a| == |b| == |c|
    ensures Dot(a, b) - Dot(a, c) == Dot(a, Sub(b, c))
  {
    if |a| > 0 {
      assert Sub(b, c)[1..] == Sub(b[1..], c[1..]);
      DotSub(a[1..], b[1..], c[1..]);
      assert a[0] * b[0] - a[0] * c[0] == a[0] * (b[0] - c[0]);
    }
  }

  /**
   * Evaluated at `LI·val` and `LI·m`, the function is `-0.5 · |LI·(val - m)|²`.
   * When `LI` is the inverse of `L`, this is the source's doc comment's
   * `-.5 (val-m).T (L L.T).I (val-m)`.
   */
  lemma LogpIsWhitenedResidual(LI: Matrix, val: Vector, m: Vector)
    requires |val| == |m| && Rows(LI, |val|)
    ensures LogpOfScaled(MatVec(LI, val), MatVec(LI, m)) == -0.5 * SumSq(MatVec(LI, Sub(val, m)))
  {
    var d := Sub(MatVec(LI, val), MatVec(LI, m));
    forall k | 0 <= k < |LI| ensures d[k] == MatVec(LI, Sub(val, m))[k] {
      DotSub(LI[k], val, m);
    }
    assert d == MatVec(LI, Sub(val, m));
    SumSqDiffIsSumSqOfSub(MatVec(LI, val), MatVec(LI, m));
  }
}

=== FILE: wrappers.dfy ===
/** An optional value: the model's stand-in for Python's `None`. */
module Wrappers {
  datatype Option<+T> = None | Some(value: T)
}
